=== FILE: README.md ===
# GoJobs bookkeeping, modelled in Dafny

GoJobs runs a configured list of shell jobs in parallel. Each job's output
goes to the console, coloured by log level, and, when a log file is
configured, also to a JSON-lines log file. The program ends with the highest
exit code any job recorded. It can also add a job to the job file and replay a
log file through a tag and regular-expression filter.

This project models the sequential bookkeeping under the process plumbing.
It has four modules:

- `Fmt` (`fmt.dfy`): the decimal rendering of `%d`, and Go's `fmt.Sprintf`
  applied to a format string with no operands, as `LogFormat` does to every
  message that reaches it through `LogInfo`, `LogError` or `LogFatal`: flags,
  argument indexes, `*` and decimal widths and precisions, and the error
  markers fmt writes for them.
- `ExitCodes` (`exit_codes.dfy`): the outcome of a job's `Wait` and the
  exit code it records. A completion raises the package-wide `ExitCode`, and
  the fold of whole completions ends at the highest code whatever their
  order. Two completions whose unguarded test and store interleave are
  modelled apart, and can lose the higher code.
- `Jobs` (`jobs.dfy`): job records and log entries, plus the class `Runner`.
  `Runner` holds the package state: the configuration, an array of per-job
  runtime records, `ExitCode`, `LogFilename`, the log file's records, the
  console lines, and a ghost `killed` flag per job. Its methods are
  `LogFormat` and the colour wrappers, `Run` (split into `Start`, `LogOutput`,
  `RecordOutcome` and `Finish`), dispatch, completion in a given order,
  `Status` and `Shutdown`.
- `GoJobs` (`gojobs.dfy`): the command-line program. It covers log replay, the
  job-file load guard, `-add`, log-file truncation, and the natural and
  interrupted ends of `-run`.

Processes, goroutines and signals are not modelled. A job's process is an
`Execution` value: its output lines, how `Wait` ended, and the elapsed time.
The concurrent completions are a schedule, a sequence of distinct job
indices. Every such order is allowed. Each completion's update of `ExitCode`
is taken as one indivisible step, and with that the final exit code is proved
not to depend on the order. The source does not guard that update; the
Findings below show what an interleaving of two updates does. Clock readings are opaque `now` strings. The JSON codec and the
regular expression are inputs: a decoded value or None, and a predicate on
strings.

The model follows the code where it departs from the program's documented
behaviour, except for the bugs logged under Findings: there the main model
follows the evidently intended behaviour, and a separate as-written member
shows what the code does.

- A job killed by a signal has a `WaitStatus` whose exit status is -1. The
  code records -1 and never lowers `ExitCode` with it, where the documented
  behaviour is that such a job records 1.
- The `-env` flag's help text asks for a JSON object, but the code decodes it
  into a list of strings. A JSON array of strings replaces the ambient
  environment. A JSON `null` also decodes: it leaves no list at all, and the
  job then inherits the environment of the program that runs it. Anything
  else is a fatal error with status 1.
- A `Wait` error that is an `ExitError` whose `Sys()` is not a `WaitStatus`
  logs nothing and records nothing (jobs/jobs.go:189-197 has no else branch
  there), where the documented behaviour is exit code 1 with an error line.
- The status report is red only for an exit code above 0 (jobs/jobs.go:131),
  so a signalled job's -1 is reported at info level, where the documented
  behaviour is error level for any non-zero code.

## Model

| member | source | states |
|---|---|---|
| `ExitCodes.UpdateExitCode` | jobs/jobs.go:188-208 | `ExitCode` after one completion is at least its old value and at least the recorded code, and is one of the two |
| `ExitCodes.FoldIsHighest` | jobs/jobs.go:194-204 | after any sequence of completions `ExitCode` is the highest of its start value and every recorded code |
| `ExitCodes.FoldOrderIndependent` | cmd/gojobs/gojobs.go:148-151 | completions taken as whole, indivisible updates give the same final `ExitCode` in any order |
| `ExitCodes.FoldNeverDecreases` | jobs/jobs.go:194-196 | `ExitCode` never decreases, so a signalled job's -1 never lowers it |
| `ExitCodes.NothingHigherKeepsExitCode` | jobs/jobs.go:206-208 | when no outcome records a code above the start value (every job succeeded), `ExitCode` keeps it |
| `ExitCodes.RacedExitCode` | jobs/jobs.go:194-196 | two unguarded updates that both test before either stores end at the value stored last |
| `ExitCodes.LostExitCodeUpdate` | jobs/jobs.go:194-196 | so interleaved, a lower code overwrites a higher one, while either order of whole updates keeps the higher |
| `Fmt.Sprintf0` | jobs/jobs.go:101 | a message with no '%' is printed unchanged |
| `Fmt.PlainPrefixCopied` | jobs/jobs.go:101 | text with no '%' before a format is copied as it is |
| `Fmt.TrailingPercentIsMangled` | jobs/jobs.go:116 | a message ending in a lone '%' is printed and persisted with "%!(NOVERB)" in its place |
| `Fmt.TrailingDotIsVerb` | jobs/jobs.go:101 | a '.' that ends the format is the verb, not a precision: "%." becomes "%!.(MISSING)" |
| `Fmt.HugeWidthEndsOutput` | jobs/jobs.go:101 | an eight-digit width such as 99999999 is too large to read: it ends the output with "%!(NOVERB)" and drops the rest of the format |
| `Jobs.EntriesAt` | jobs/jobs.go:114-121 | each printed line is persisted as one record with the same tag, message and colour, in order |
| `Jobs.PersistedOne` | jobs/jobs.go:103-124 | one printed line adds exactly one record when a log file is configured and none otherwise |
| `Jobs.CompletionReport` | jobs/jobs.go:188-208 | a recorded code is reported red with that code, success blue with exit=0, an undecodable exit status not at all |
| `Jobs.OutputLinesVerbatim` | jobs/jobs.go:169-186 | every output line is logged once, in order, blue, under the job's tag, unchanged |
| `Jobs.StatusLine` | jobs/jobs.go:130-135 | a status line is red exactly when the exit code is positive and blue otherwise, so -1 is logged at info |
| `Jobs.StatusReport` | jobs/jobs.go:129-136 | the report has exactly one line per job, in configuration order |
| `Jobs.AfterCompletionsAt` | jobs/jobs.go:188-210 | after a schedule, a job's record is its finished record exactly when the schedule holds it, and is otherwise untouched |
| `Jobs.OutputLineAsWritten` | jobs/jobs.go:173 | an output line passes through fmt as a format string; one without '%' comes out unchanged |
| `Jobs.OutputLineMangled` | jobs/jobs.go:185 | an output line such as "100%" is logged as "100%!(NOVERB)" as written |
| `Jobs.Runner.constructor` | jobs/jobs.go:20-24 | `ExitCode` is 0, no log file is configured, every job is idle, nothing is killed |
| `Jobs.Runner.LogFormat` | jobs/jobs.go:100-125 | prints one line and appends exactly one record (tag, message, colour) when `LogFilename` is set, none otherwise |
| `Jobs.Runner.LogError` | jobs/jobs.go:78-86 | `LogFormat` in red |
| `Jobs.Runner.LogInfo` | jobs/jobs.go:88-96 | `LogFormat` in blue |
| `Jobs.Runner.LogFatal` | jobs/jobs.go:71-76 | logs red, then ends the process with status 1 |
| `Jobs.Runner.Start` | jobs/jobs.go:154-158 | the job's handle exists and "job started" is logged; other jobs are unchanged |
| `Jobs.Runner.LogOutput` | jobs/jobs.go:169-186 | console and log grow by exactly the job's output lines |
| `Jobs.Runner.RecordOutcome` | jobs/jobs.go:188-208 | sets the job's exit code and raises `ExitCode` as the outcome dictates; no other job changes |
| `Jobs.Runner.Finish` | jobs/jobs.go:169-210 | output, completion line, exit codes and duration of one job after `Wait` |
| `Jobs.Runner.Run` | jobs/jobs.go:151-211 | one job from start to finish |
| `Jobs.StartReport` | cmd/gojobs/gojobs.go:148-151 | dispatch prints exactly one blue "job started" line per job, in configuration order |
| `Jobs.Runner.DispatchAll` | cmd/gojobs/gojobs.go:148-151 | every job is started, "job started" lines in configuration order |
| `Jobs.Runner.CompleteInOrder` | jobs/jobs.go:188-210 | after a schedule of completions `ExitCode` is the fold over its outcomes, exactly the scheduled jobs are finished, and the console and log hold their lines, one block per job, in that order |
| `Jobs.Runner.LogStatus` | jobs/jobs.go:131-135 | one status line, at error level when the exit code is positive |
| `Jobs.Runner.Status` | jobs/jobs.go:129-136 | console and log grow by the status report |
| `Jobs.Runner.Shutdown` | jobs/jobs.go:141-147 | exactly the jobs whose process has started are killed; nothing else changes |
| `Jobs.ShutdownAsWritten` | jobs/jobs.go:141-147 | as written, Shutdown kills started processes in order until a job whose command exists without a process, where it panics; it finishes exactly when there is no such job |
| `Jobs.LaunchedJobLeftRunning` | jobs/jobs.go:143-144 | a started job after a job without a process is never killed |
| `GoJobs.Kept` | cmd/gojobs/gojobs.go:63-79 | replay re-emits only entries from the file that pass the tag flag and the filter |
| `GoJobs.KeptComplete` | cmd/gojobs/gojobs.go:70-77 | every entry that passes the tag flag and the filter is re-emitted |
| `GoJobs.KeptAppend` | cmd/gojobs/gojobs.go:63-79 | filtering distributes over concatenation, so output keeps file order |
| `GoJobs.KeptEverything` | cmd/gojobs/gojobs.go:70-76 | with no tag flag and no filter the whole file is re-emitted |
| `GoJobs.KeptIdempotent` | cmd/gojobs/gojobs.go:70-76 | filtering the output again changes nothing |
| `GoJobs.DecodablePrefix` | cmd/gojobs/gojobs.go:63-68 | replay reads lines up to the first one that does not decode |
| `GoJobs.DecodeEncode` | cmd/gojobs/gojobs.go:65-68 | a file of records decodes completely and back to the same records |
| `GoJobs.AsLinesEntries` | cmd/gojobs/gojobs.go:78 | re-emitting persisted records gives back the printed lines; only timestamps are dropped |
| `GoJobs.ReplayOfRunLog` | cmd/gojobs/gojobs.go:62-79 | replaying unfiltered a log written from a sequence of printed lines prints those lines again, in order |
| `GoJobs.ReplayEntry` | cmd/gojobs/gojobs.go:70-78 | an entry is printed with its own colour, tag and message exactly when the filter keeps it |
| `GoJobs.ReplayLogs` | cmd/gojobs/gojobs.go:41-85 | a bad filter or a missing file exits 1 and prints nothing; otherwise prints the kept entries of the decodable prefix, and exits 1 if a line does not decode, else 0 |
| `GoJobs.ReplayedLineAsWritten` | cmd/gojobs/gojobs.go:78 | a replayed message passes through fmt as a format string; one without '%' comes out unchanged |
| `GoJobs.ReplayMangled` | cmd/gojobs/gojobs.go:78 | a logged "100%" is replayed as "100%!(NOVERB)" as written |
| `GoJobs.Cli.constructor` | cmd/gojobs/gojobs.go:18 | `Jobs` starts as the empty configuration |
| `GoJobs.Cli.LoadJobFile` | cmd/gojobs/gojobs.go:88-98 | the job file is loaded only when it exists, and one that does not decode is fatal |
| `GoJobs.Cli.AddJob` | cmd/gojobs/gojobs.go:101-131 | an empty tag or an undecodable env fails with nothing changed; otherwise exactly one spec is appended, earlier ones are kept, the env is the ambient list, a decoded list, or none (inherited) for `null`, and the file is rewritten |
| `GoJobs.BeginRun` | cmd/gojobs/gojobs.go:134-151 | the log file is emptied before any job is dispatched, then every job starts |
| `GoJobs.ExitNaturally` | cmd/gojobs/gojobs.go:167-169 | reports the status and exits with `ExitCode` unchanged |
| `GoJobs.ExitOnInterrupt` | cmd/gojobs/gojobs.go:157-165 | kills the started jobs, reports the status, exits with max(`ExitCode`, 1) |
| `GoJobs.CompleteScheduleOutcomes` | cmd/gojobs/gojobs.go:148-151 | a schedule in which every job completes yields every job's outcome |
| `GoJobs.CompleteRunExitCode` | cmd/gojobs/gojobs.go:167-169 | after every job completes, in any order of whole updates, `ExitCode` is the highest recorded code |
| `GoJobs.AllSucceedExitZero` | cmd/gojobs/gojobs.go:169 | when every job succeeds the program exits with 0 |
| `GoJobs.RunUntil` | cmd/gojobs/gojobs.go:134-151 | dispatch then completion in a schedule; with indivisible `LogFormat` calls, the log holds exactly the model's console lines |
| `GoJobs.RunToCompletion` | cmd/gojobs/gojobs.go:134-169 | a run whose jobs all finish exits with the highest recorded code whatever the order of whole updates, and, with indivisible `LogFormat` calls, its log equals the model's console |
| `GoJobs.RunInterrupted` | cmd/gojobs/gojobs.go:154-165 | an interrupted run kills every started job and exits with at least 1 |

## Left out

- Processes, pipes, `Start`/`Wait`/`Kill`, goroutines, the wait group and `signal.Notify` are not modelled. A job's process is an `Execution` value, a kill is the ghost `killed` flag, and the completion/signal race becomes two separate end paths.
- The pipe-creation and `Start` failures in `Run` are not modelled: no `Execution` reaches the runner for a job that failed to launch. Each calls `LogFatal`, which is modelled on its own.
- `bufio.Scanner` line splitting, its 64 KiB line limit, the scanner error at the end of replay, and the interleaving of a job's standard output and standard error are not modelled. A job's output is one sequence of lines, in the order read.
- The ANSI escape text of console lines is not modelled. A console line is its colour, tag and message.
- File open, write and close errors, and `log.Fatal` on the command line, are not modelled except as an exit with status 1.
- The "wrote job" message after `-add`, and the "total run time" line at the end of `Status`, are not modelled: both are unstructured `log`/`fmt` output.
- The JSON codec and regular-expression matching are inputs, not modelled. The regex is a predicate on strings, and each file line or flag is either decoded or not.
- Clock readings are not modelled: every method takes one opaque `now` string, and a whole run uses one reading.
- Jobs.Runner.DispatchAll: the "job started" lines are printed in configuration order and before any completion, where in the source they interleave with other jobs' output.
- Jobs.StatusMessage: durations are rendered as plain nanoseconds ("1500ns") instead of Go's `Duration` string ("1.5µs").
- Fmt.Sprintf0: formats are sequences of characters, not of bytes; a verb that is not valid UTF-8, which fmt prints as U+FFFD, is not modelled (see the line on bytes below).
- Jobs.Runner.LogOutput: logs each output line verbatim. This is the corrected half of the first Findings row; what the source does is `Jobs.OutputLineAsWritten`.
- GoJobs.ReplayLogs: re-emits each kept message verbatim. This is the corrected half of the second Findings row; what the source does is `GoJobs.ReplayedLineAsWritten`.
- ExitCodes.FoldOrderIndependent: each completion's test-then-store of `ExitCode` is taken as indivisible. The source does not guard it, and an interleaving can lose the higher code (third Findings row, `ExitCodes.RacedExitCode`).
- Jobs.Runner.Shutdown: a job's `started` flag stands for a started process, so the model takes the signal only when every job with a command has a process. The source panics on a command whose process is not started yet (fourth Findings row, `Jobs.ShutdownAsWritten`). A job whose goroutine has not yet created its command is skipped, and it can still start its process before the program exits; that process is left running.
- Jobs.EntriesAt: strings are sequences of characters. Go strings are bytes, and `json.Marshal` writes each byte that is not valid UTF-8 as U+FFFD, so a log record can differ from the printed line when a job prints such bytes.
- GoJobs.AsLinesEntries: holds only for messages and tags that are valid UTF-8, for the same reason.
- GoJobs.ReplayOfRunLog: holds only for messages and tags that are valid UTF-8, for the same reason.
- GoJobs.RunUntil: the log equals the console only for messages and tags that are valid UTF-8, for the same reason.
- GoJobs.RunToCompletion: the log equals the console only for messages and tags that are valid UTF-8, for the same reason.
- GoJobs.RunInterrupted: the signal is taken only after every job has been dispatched and between completions. The handler is installed after dispatch (cmd/gojobs/gojobs.go:154-156); a signal arriving earlier ends the process with the default action. As for Jobs.Runner.Shutdown, every dispatched job is taken to have a started process.
- GoJobs.RunInterrupted: only an interrupt (SIGINT) takes this path. Registering `os.Kill` (cmd/gojobs/gojobs.go:156) has no effect, because SIGKILL cannot be caught, and SIGTERM is not registered. Either of them ends the program at once: there is no `Shutdown` and no status report, and the jobs are left running.
- GoJobs.RunToCompletion: each `LogFormat` call is taken as one indivisible step that prints and appends together, and each job's lines as one block, in completion order. The same holds for GoJobs.RunUntil, GoJobs.RunInterrupted, Jobs.Runner.CompleteInOrder and GoJobs.ReplayOfRunLog. In the source `LogFormat` prints (jobs/jobs.go:101) and appends later (103-123) with no lock, called at once by two goroutines per job and by every other job. So the jobs' lines interleave, and the log's order can differ from the console's: A prints `a`, B prints and appends `b`, then A appends `a`; the console shows a, b, the log and its replay b, a.
- Jobs.Runner.Finish: the model takes the standard-output reader (jobs/jobs.go:169-175) as drained before `Wait`, so all output lines come before the completion line and the status report. In the source that reader is not waited for: `Wait` closes the pipe once the process exits, and `Run` returns without joining the reader. Output lines can then be cut off, be logged after "job complete" or "job error" or after the status report, or be lost at `os.Exit`. The same order is assumed by Jobs.Runner.Run, Jobs.Runner.CompleteInOrder, GoJobs.RunUntil, GoJobs.RunToCompletion and GoJobs.RunInterrupted.

## Findings

| source | as written | input that shows it | evidently intended | confidence | as-written member | corrected member |
|---|---|---|---|---|---|---|
| jobs/jobs.go:173 | each output line of a job is passed to `LogInfo`, and so to `fmt.Sprintf`, as the format string (also at line 185) | a job printing the line `100%` | the line is logged verbatim | high; not executed | `Jobs.OutputLineMangled` | `Jobs.OutputLinesVerbatim` |
| cmd/gojobs/gojobs.go:78 | a replayed entry's message is passed to `LogFormat` as the format string | a log entry whose message is `100%` | the message is re-emitted unchanged | high; not executed | `GoJobs.ReplayMangled` | `GoJobs.ReplayLogs` |
| jobs/jobs.go:194-196 | each job tests its code against `ExitCode` and then stores it, with no lock, from its own goroutine (also at 200-202) | jobs exiting 5 and 3 at once: the 3-job tests against 0, the 5-job tests and stores 5, then the 3-job stores 3, and the program exits 3 | `ExitCode` ends at the highest recorded code | medium; not executed | `ExitCodes.LostExitCodeUpdate` | `ExitCodes.FoldIsHighest` |
| jobs/jobs.go:143-144 | Shutdown kills every job whose command exists, but a command's `Process` is nil until `Start` (line 178) | an interrupt while one job is between lines 154 and 178 and a later job runs: `Kill` panics on the nil `Process`, the later job is never killed and no status report is printed | every started process is killed and the status is reported | high; not executed | `Jobs.LaunchedJobLeftRunning` | `Jobs.Runner.Shutdown` |

=== FILE: exit_codes.dfy ===
/** The exit-code rules of jobs/jobs.go: how the outcome of a job's Wait sets
    the job's own exit code and raises the process-wide `ExitCode`, and why the
    order in which whole completions come does not matter to the final
    value, and how two interleaved updates can lose the higher code. */
module ExitCodes {

  datatype Option<T> = None | Some(value: T)

  /** What `Wait` reported for a job's process. */
  datatype WaitOutcome =
    | Success                   // Wait returned nil
    | ExitStatus(status: int)   // an ExitError whose Sys() is a WaitStatus; status is its ExitStatus(), -1 when signalled
    | ExitErrorUndecodable      // an ExitError whose Sys() is not a WaitStatus
    | OtherError                // any other error from Wait

  function Max(a: int, b: int): (m: int)
    ensures m >= a && m >= b && (m == a || m == b)
  {
    if a < b then b else a
  }

  /** The exit code a job records for an outcome; None when it records none. */
  function RecordedCode(o: WaitOutcome): Option<int>
  {
    match o
    case Success => None
    case ExitStatus(s) => Some(s)
    case ExitErrorUndecodable => None
    case OtherError => Some(1)
  }

  /** The job's `exitCode` field after the outcome, given its value before. */
  function JobExitCode(before: int, o: WaitOutcome): int
  {
    match RecordedCode(o)
    case None => before
    case Some(c) => c
  }

  /** The global `ExitCode` after one completion: raised to the recorded code
      when that is higher, otherwise left alone. */
  function UpdateExitCode(e: int, o: WaitOutcome): (r: int)
    ensures r >= e
    ensures RecordedCode(o).Some? ==> r >= RecordedCode(o).value
    ensures r == e || RecordedCode(o) == Some(r)
  {
    match RecordedCode(o)
    case None => e
    case Some(c) => if c > e then c else e
  }

  /** The global `ExitCode` after the completions in `outcomes`, taken in
      that order, starting from `e`. */
  function FoldExitCode(e: int, outcomes: seq<WaitOutcome>): int
    decreases |outcomes|
  {
    if outcomes == [] then e
    else UpdateExitCode(FoldExitCode(e, outcomes[..|outcomes| - 1]), outcomes[|outcomes| - 1])
  }

  /** One more completion on top of a sequence of them. */
  lemma FoldAppend(e: int, outcomes: seq<WaitOutcome>, o: WaitOutcome)
    ensures FoldExitCode(e, outcomes + [o]) == UpdateExitCode(FoldExitCode(e, outcomes), o)
  {
    assert (outcomes + [o])[..|outcomes|] == outcomes;
  }

  /** r is the largest of e and of every code recorded by an outcome in `outcomes`. */
  ghost predicate IsHighest(r: int, e: int, outcomes: seq<WaitOutcome>)
  {
    && r >= e
    && (forall o | o in outcomes && RecordedCode(o).Some? :: r >= RecordedCode(o).value)
    && (r == e || exists o | o in outcomes :: RecordedCode(o) == Some(r))
  }

  /** However the completions are ordered, the global `ExitCode` ends at the
      highest of its starting value and every recorded code. */
  lemma {:induction false} FoldIsHighest(e: int, outcomes: seq<WaitOutcome>)
    ensures IsHighest(FoldExitCode(e, outcomes), e, outcomes)
    decreases |outcomes|
  {
    if outcomes != [] {
      var init, last := outcomes[..|outcomes| - 1], outcomes[|outcomes| - 1];
      assert outcomes == init + [last];
      FoldIsHighest(e, init);
      var before := FoldExitCode(e, init);
      var r := FoldExitCode(e, outcomes);
      assert r == UpdateExitCode(before, last);
      forall o | o in outcomes && RecordedCode(o).Some?
        ensures r >= RecordedCode(o).value
      {
        if o in init {
          assert before >= RecordedCode(o).value;
        } else {
          assert o == last;
        }
      }
      if r != e {
        if r == before {
          var w :| w in init && RecordedCode(w) == Some(r);
          assert w in outcomes;
        } else {
          assert RecordedCode(last) == Some(r);
          assert last in outcomes;
        }
      }
    }
  }

  /** Two values that are both the highest over the same outcomes are equal. */
  lemma HighestIsUnique(r1: int, r2: int, e: int, xs: seq<WaitOutcome>, ys: seq<WaitOutcome>)
    requires forall o :: o in xs <==> o in ys
    requires IsHighest(r1, e, xs) && IsHighest(r2, e, ys)
    ensures r1 == r2
  {
    if r2 != e {
      var w :| w in ys && RecordedCode(w) == Some(r2);
      assert w in xs;
    }
    if r1 != e {
      var w :| w in xs && RecordedCode(w) == Some(r1);
      assert w in ys;
    }
  }

  /** Completions come in any order. Taking each one's update of `ExitCode`
      as indivisible, the final value depends only on which outcomes
      occurred; RacedExitCode shows an interleaving that breaks this. */
  lemma FoldOrderIndependent(e: int, xs: seq<WaitOutcome>, ys: seq<WaitOutcome>)
    requires forall o :: o in xs <==> o in ys
    ensures FoldExitCode(e, xs) == FoldExitCode(e, ys)
  {
    FoldIsHighest(e, xs);
    FoldIsHighest(e, ys);
    HighestIsUnique(FoldExitCode(e, xs), FoldExitCode(e, ys), e, xs, ys);
  }

  /** `ExitCode` never decreases: later completions can only raise it, so a
      signalled job's -1 never lowers it. */
  lemma FoldNeverDecreases(e: int, xs: seq<WaitOutcome>, ys: seq<WaitOutcome>)
    ensures e <= FoldExitCode(e, xs) <= FoldExitCode(e, xs + ys)
  {
    FoldIsHighest(e, xs);
    FoldIsHighest(e, xs + ys);
    var r := FoldExitCode(e, xs);
    if r != e {
      var w :| w in xs && RecordedCode(w) == Some(r);
      assert w in xs + ys;
    }
  }

  /** When no outcome records a code above the starting value (in particular
      when every job succeeds), `ExitCode` keeps that value. */
  lemma {:induction false} NothingHigherKeepsExitCode(e: int, xs: seq<WaitOutcome>)
    requires forall o | o in xs && RecordedCode(o).Some? :: RecordedCode(o).value <= e
    ensures FoldExitCode(e, xs) == e
  {
    FoldIsHighest(e, xs);
  }

  /** Two completions racing on the unguarded test-then-store of `ExitCode`
      as written: both jobs test their code against the value `e` they read
      before either stores, and the store of `late` lands after that of
      `early`. */
  function RacedExitCode(e: int, early: int, late: int): (r: int)
    ensures r == early || r == late || r == e
    ensures late > e ==> r == late
  {
    var afterEarly := if early > e then early else e;
    if late > e then late else afterEarly
  }

  /** Interleaved so, a lower code overwrites a higher one: the final
      `ExitCode` is the lower code, while either order of whole updates
      ends at the higher. */
  lemma LostExitCodeUpdate(e: int, low: int, high: int)
    requires e < low < high
    ensures RacedExitCode(e, high, low) == low
    ensures FoldExitCode(e, [ExitStatus(high), ExitStatus(low)]) == high
    ensures FoldExitCode(e, [ExitStatus(low), ExitStatus(high)]) == high
  {
    assert [ExitStatus(high)][..0] == [];
    assert [ExitStatus(low)][..0] == [];
    assert FoldExitCode(e, [ExitStatus(high)]) == high;
    assert FoldExitCode(e, [ExitStatus(low)]) == low;
    assert [ExitStatus(high), ExitStatus(low)][..1] == [ExitStatus(high)];
    assert [ExitStatus(low), ExitStatus(high)][..1] == [ExitStatus(low)];
  }
}

=== FILE: fmt.dfy ===
/** Text formatting the log messages rely on: the decimal rendering of Go's `%d`
    verb, and Go's `fmt.Sprintf` applied to a format string with no operands,
    which is what `LogFormat` does to every text that reaches it through
    `LogInfo`, `LogError` or `LogFatal` (jobs/jobs.go:100-101, 116). */
module Fmt {

  const Digits: set<char> := {'0', '1', '2', '3', '4', '5', '6', '7', '8', '9'}

  /** The flag characters Go's fmt accepts right after a '%'. */
  const Flags: set<char> := {'#', '0', '+', '-', ' '}

  function DigitChar(d: nat): char
    requires d < 10
  {
    (d + 48) as char
  }

  /** `%d` of a non-negative integer: its decimal digits, most significant first. */
  function NatToString(n: nat): string
    decreases n
  {
    if n < 10 then [DigitChar(n)] else NatToString(n / 10) + [DigitChar(n % 10)]
  }

  /** `%d` of any integer: a minus sign before the digits of a negative value. */
  function IntToString(i: int): string
  {
    if i < 0 then "-" + NatToString(-i) else NatToString(i)
  }

  /** The first index at or after i whose character is not in cs. */
  function Span(s: string, i: nat, cs: set<char>): (j: nat)
    requires i <= |s|
    ensures i <= j <= |s|
    ensures forall k | i <= k < j :: s[k] in cs
    ensures j < |s| ==> s[j] !in cs
    decreases |s| - i
  {
    if i < |s| && s[i] in cs then Span(s, i + 1, cs) else i
  }

  /** The first index at or after i whose character is ']', or |s| when there is none. */
  function CloseBracket(s: string, i: nat): (j: nat)
    requires i <= |s|
    ensures i <= j <= |s|
    ensures forall k | i <= k < j :: s[k] != ']'
    ensures j < |s| ==> s[j] == ']'
    decreases |s| - i
  {
    if i < |s| && s[i] != ']' then CloseBracket(s, i + 1) else i
  }

  /** What fmt's number scan finds in s[i..end]: the end of the run of
      decimal digits, or TooLarge when the value read so far is above a
      million and yet another digit follows. */
  datatype NumScan = Scanned(end: nat) | TooLarge

  function ParseNum(s: string, i: nat, end: nat, num: nat): (r: NumScan)
    requires i <= end <= |s|
    ensures r.Scanned? ==> i <= r.end <= end
    ensures r.Scanned? ==> (forall k | i <= k < r.end :: s[k] in Digits) && (r.end < end ==> s[r.end] !in Digits)
    decreases end - i
  {
    if i < end && s[i] in Digits then
      if num > 1000000 then TooLarge else ParseNum(s, i + 1, end, num * 10 + (s[i] as int - '0' as int))
    else Scanned(i)
  }

  /** Where fmt stands while it reads one directive: the index it has
      reached, whether an argument index "[n]" was seen (with no operands
      every such index is bad), whether the last thing read was an index,
      and the error markers written so far. */
  datatype Cursor = Cursor(pos: nat, badIndex: bool, afterIndex: bool, marks: string)

  /** An optional argument index "[n]" at the cursor. A '[' with no ']'
      after it, or fewer than three characters left, skips only the '['. */
  function ArgNumber(s: string, c: Cursor): (r: Cursor)
    requires c.pos <= |s|
    ensures c.pos <= r.pos <= |s|
    ensures r.afterIndex ==> r.badIndex
    ensures (c.pos < |s| && s[c.pos] == '[') <==> r.pos > c.pos
    ensures r.marks == c.marks
  {
    if c.pos >= |s| || s[c.pos] != '[' then c.(afterIndex := false)
    else if |s| - c.pos < 3 then c.(pos := c.pos + 1, badIndex := true, afterIndex := false)
    else
      var close := CloseBracket(s, c.pos + 1);
      if close == |s| then c.(pos := c.pos + 1, badIndex := true, afterIndex := false)
      else
        var ok := close > c.pos + 1 && ParseNum(s, c.pos + 1, close, 0) == Scanned(close);
        c.(pos := close + 1, badIndex := true, afterIndex := ok)
  }

  /** An optional width: '*' with no operand to take it from writes
      "%!(BADWIDTH)"; a decimal width too large to read ends the format. */
  function Width(s: string, c: Cursor): (r: Cursor)
    requires c.pos <= |s|
    requires c.afterIndex ==> c.badIndex
    ensures c.pos <= r.pos <= |s|
    ensures r.afterIndex ==> r.badIndex
  {
    if c.pos < |s| && s[c.pos] == '*' then c.(pos := c.pos + 1, marks := c.marks + "%!(BADWIDTH)", afterIndex := false)
    else match ParseNum(s, c.pos, |s|, 0)
      case TooLarge => c.(pos := |s|)
      case Scanned(j) => c.(pos := j)
  }

  /** An optional precision: a '.' counts only when another character
      follows it; then an index, and '*' (writing "%!(BADPREC)") or a
      decimal number, as for the width. */
  function Precision(s: string, c: Cursor): (r: Cursor)
    requires c.pos <= |s|
    requires c.afterIndex ==> c.badIndex
    ensures c.pos <= r.pos <= |s|
    ensures r.afterIndex ==> r.badIndex
    ensures (c.pos + 1 < |s| && s[c.pos] == '.') <==> r.pos > c.pos
  {
    if c.pos + 1 < |s| && s[c.pos] == '.' then
      var i := ArgNumber(s, c.(pos := c.pos + 1));
      if i.pos < |s| && s[i.pos] == '*' then i.(pos := i.pos + 1, marks := i.marks + "%!(BADPREC)", afterIndex := false)
      else match ParseNum(s, i.pos, |s|, 0)
        case TooLarge => i.(pos := |s|)
        case Scanned(j) => i.(pos := j)
    else c
  }

  /** For a directive starting with the '%' at f[0]: the cursor at its verb,
      after the flags, an index, a width, a precision and another index. Its
      position is |f| when the format ends first, or when a width or a
      precision is too large to read. */
  function Directive(f: string): (c: Cursor)
    requires |f| > 0
    ensures 1 <= c.pos <= |f|
    ensures |f| == 1 || f[1] !in Flags + Digits + {'[', '*', '.'} || (|f| == 2 && f[1] == '.') ==> c.pos == 1
  {
    var flags := Cursor(Span(f, 1, Flags), false, false, "");
    var width := Width(f, ArgNumber(f, flags));
    var precision := Precision(f, width);
    if precision.afterIndex then precision else ArgNumber(f, precision)
  }

  /** `fmt.Sprintf(f)` with no operands: text outside directives is copied,
      a directive whose verb is '%' becomes '%', a directive cut off by the
      end of the format (or by a number too large to read) becomes
      "%!(NOVERB)" and ends the output, and any other directive, having no
      operand to print, becomes "%!" followed by its verb and "(MISSING)",
      or "(BADINDEX)" when it names an argument index. */
  function Sprintf0(f: string): (r: string)
    ensures '%' !in f ==> r == f
    decreases |f|, 1
  {
    if f == [] then []
    else if f[0] != '%' then [f[0]] + Sprintf0(f[1..])
    else Directed(f)
  }

  /** The output of a format that starts with a directive: the markers,
      then what the verb becomes, then the output of the rest. */
  function Directed(f: string): (r: string)
    requires |f| > 0
    decreases |f|, 0
  {
    var d := Directive(f);
    if d.pos == |f| then d.marks + "%!(NOVERB)"
    else
      var verb := f[d.pos];
      d.marks
      + (if verb == '%' then "%" else if d.badIndex then "%!" + [verb] + "(BADINDEX)" else "%!" + [verb] + "(MISSING)")
      + Sprintf0(f[d.pos + 1..])
  }

  /** A character other than '%' at the head of a format is copied. */
  lemma PlainHeadCopied(f: string)
    requires f != [] && f[0] != '%'
    ensures Sprintf0(f) == [f[0]] + Sprintf0(f[1..])
  {
  }

  /** Text with no '%' in front of a format is copied as it is. */
  lemma {:induction false} PlainPrefixCopied(text: string, tail: string)
    requires '%' !in text
    ensures Sprintf0(text + tail) == text + Sprintf0(tail)
    decreases |text|
  {
    if text != [] {
      var f := text + tail;
      assert f[0] == text[0] && f[1..] == text[1..] + tail;
      PlainHeadCopied(f);
      PlainPrefixCopied(text[1..], tail);
      assert text == [text[0]] + text[1..];
    } else {
      assert text + tail == tail;
    }
  }

  /** A format whose last character is a lone '%' loses its tail to the
      "%!(NOVERB)" marker: Sprintf0 does not reproduce it. */
  lemma TrailingPercentIsMangled(text: string)
    requires '%' !in text
    ensures Sprintf0(text + "%") == text + "%!(NOVERB)"
  {
    assert Directive("%").pos == 1;
    PlainPrefixCopied(text, "%");
  }

  /** A '.' that ends the format is not a precision but the verb. */
  lemma TrailingDotIsVerb(text: string)
    requires '%' !in text
    ensures Sprintf0(text + "%.") == text + "%!.(MISSING)"
  {
    assert Directive("%.").pos == 1;
    assert "%."[2..] == [];
    PlainPrefixCopied(text, "%.");
  }

  /** A width too large to read ends the output, dropping the verb and
      everything after it. */
  lemma HugeWidthEndsOutput(text: string, rest: string)
    requires '%' !in text
    ensures Sprintf0(text + "%99999999d" + rest) == text + "%!(NOVERB)"
  {
    var f := "%99999999d" + rest;
    assert f[..9] == "%99999999";
    calc {
      ParseNum(f, 1, |f|, 0);
      ParseNum(f, 2, |f|, 9);
      ParseNum(f, 3, |f|, 99);
      ParseNum(f, 4, |f|, 999);
      ParseNum(f, 5, |f|, 9999);
      ParseNum(f, 6, |f|, 99999);
      ParseNum(f, 7, |f|, 999999);
      ParseNum(f, 8, |f|, 9999999);
      TooLarge;
    }
    assert Directive(f).pos == |f|;
    assert text + "%99999999d" + rest == text + f;
    PlainPrefixCopied(text, f);
  }
}

=== FILE: gojobs.dfy ===
/** The command-line program (cmd/gojobs/gojobs.go): replaying a log file,
    loading the job file, adding a job to it, and the two ways a run ends.
    Flags, the contents of files, the JSON codec and the compiled regular
    expression are inputs to the members here. */
module GoJobs {
  import opened ExitCodes
  import opened Jobs
  import Fmt

  /** Where a step of the program leads: on to the next, or out with a status. */
  datatype Step = Continue | Exit(status: int)

  // Log replay (cmd/gojobs/gojobs.go:41-85)

  /** The replay filter: an empty tag flag or an empty filter keeps every
      entry; `matches` stands for the compiled expression's MatchString. */
  predicate Keep(e: LogEntry, tag: string, filter: string, matches: string -> bool)
  {
    (tag == "" || e.tag == tag) && (filter == "" || matches(e.message))
  }

  /** The entries replay re-emits, in file order. */
  function Kept(entries: seq<LogEntry>, tag: string, filter: string, matches: string -> bool): (r: seq<LogEntry>)
    ensures |r| <= |entries|
    ensures forall e | e in r :: e in entries && Keep(e, tag, filter, matches)
    decreases |entries|
  {
    if entries == [] then []
    else
      var n := |entries| - 1;
      Kept(entries[..n], tag, filter, matches) + (if Keep(entries[n], tag, filter, matches) then [entries[n]] else [])
  }

  /** Every entry the filter accepts is re-emitted. */
  lemma {:induction false} KeptComplete(entries: seq<LogEntry>, tag: string, filter: string, matches: string -> bool)
    ensures forall e | e in entries && Keep(e, tag, filter, matches) :: e in Kept(entries, tag, filter, matches)
    decreases |entries|
  {
    if entries != [] {
      var n := |entries| - 1;
      KeptComplete(entries[..n], tag, filter, matches);
      assert entries == entries[..n] + [entries[n]];
    }
  }

  /** Filtering distributes over concatenation, so the kept entries keep the
      file's order: replay prints exactly the accepted subsequence. */
  lemma {:induction false} KeptAppend(a: seq<LogEntry>, b: seq<LogEntry>, tag: string, filter: string, matches: string -> bool)
    ensures Kept(a + b, tag, filter, matches) == Kept(a, tag, filter, matches) + Kept(b, tag, filter, matches)
    decreases |b|
  {
    if b == [] {
      assert a + b == a;
    } else {
      var n := |b| - 1;
      var last := if Keep(b[n], tag, filter, matches) then [b[n]] else [];
      assert (a + b)[..|a + b| - 1] == a + b[..n];
      assert (a + b)[|a + b| - 1] == b[n];
      assert Kept(a + b, tag, filter, matches) == Kept(a + b[..n], tag, filter, matches) + last;
      KeptAppend(a, b[..n], tag, filter, matches);
      assert Kept(b, tag, filter, matches) == Kept(b[..n], tag, filter, matches) + last;
    }
  }

  /** With no tag flag and no filter, replay keeps the whole file. */
  lemma {:induction false} KeptEverything(entries: seq<LogEntry>, matches: string -> bool)
    ensures Kept(entries, "", "", matches) == entries
    decreases |entries|
  {
    if entries != [] {
      var n := |entries| - 1;
      KeptEverything(entries[..n], matches);
      assert entries == entries[..n] + [entries[n]];
    }
  }

  /** Filtering what replay printed again keeps all of it. */
  lemma {:induction false} KeptIdempotent(entries: seq<LogEntry>, tag: string, filter: string, matches: string -> bool)
    ensures Kept(Kept(entries, tag, filter, matches), tag, filter, matches) == Kept(entries, tag, filter, matches)
    decreases |entries|
  {
    if entries != [] {
      var n := |entries| - 1;
      var init := Kept(entries[..n], tag, filter, matches);
      KeptIdempotent(entries[..n], tag, filter, matches);
      if Keep(entries[n], tag, filter, matches) {
        assert (init + [entries[n]])[..|init|] == init;
        assert Kept(entries, tag, filter, matches) == init + [entries[n]];
      } else {
        assert Kept(entries, tag, filter, matches) == init + [];
        assert init + [] == init;
      }
    }
  }

  /** The number of leading lines of a log file that decode as entries;
      replay stops with an error at the first one that does not. */
  function DecodablePrefix(lines: seq<Option<LogEntry>>): (k: nat)
    ensures k <= |lines|
    ensures forall i | 0 <= i < k :: lines[i].Some?
    ensures k < |lines| ==> lines[k].None?
    decreases |lines|
  {
    if lines == [] || lines[0].None? then 0 else 1 + DecodablePrefix(lines[1..])
  }

  /** Where a scan of the file from its start stops: at the first line that
      does not decode. */
  lemma DecodableScan(lines: seq<Option<LogEntry>>, k: nat)
    requires k <= DecodablePrefix(lines) && k < |lines|
    ensures lines[k].Some? ==> k + 1 <= DecodablePrefix(lines)
    ensures lines[k].None? ==> k == DecodablePrefix(lines)
  {
  }

  /** The entries of the lines that decode, in file order. */
  function Decoded(lines: seq<Option<LogEntry>>): seq<LogEntry>
    decreases |lines|
  {
    if lines == [] then []
    else
      var n := |lines| - 1;
      Decoded(lines[..n]) + (if lines[n].Some? then [lines[n].value] else [])
  }

  /** A log file every line of which decodes. */
  function Encode(entries: seq<LogEntry>): seq<Option<LogEntry>>
  {
    seq(|entries|, i requires 0 <= i < |entries| => Some(entries[i]))
  }

  /** A file written from entries decodes completely and back to them. */
  lemma {:induction false} DecodeEncode(entries: seq<LogEntry>)
    ensures DecodablePrefix(Encode(entries)) == |entries|
    ensures Decoded(Encode(entries)) == entries
    decreases |entries|
  {
    if entries != [] {
      var n := |entries| - 1;
      assert Encode(entries)[..n] == Encode(entries[..n]);
      DecodeEncode(entries[..n]);
      assert entries == entries[..n] + [entries[n]];
    }
  }

  /** The console line replay prints for an entry: its own colour, tag and message. */
  function EntryLine(e: LogEntry): Line
  {
    Line(e.color, e.tag, e.message)
  }

  function AsLines(entries: seq<LogEntry>): seq<Line>
    decreases |entries|
  {
    if entries == [] then []
    else AsLines(entries[..|entries| - 1]) + [EntryLine(entries[|entries| - 1])]
  }

  /** Replaying the records a run persisted gives back the lines it printed:
      only the timestamps are dropped. */
  lemma {:induction false} AsLinesEntries(lines: seq<Line>, now: string)
    ensures AsLines(Entries(lines, now)) == lines
    decreases |lines|
  {
    if lines != [] {
      var n := |lines| - 1;
      var init := Entries(lines[..n], now);
      AsLinesEntries(lines[..n], now);
      assert (init + [ToEntry(lines[n], now)])[..|init|] == init;
      assert lines == lines[..n] + [lines[n]];
    }
  }

  /** Replaying, unfiltered, a log file written from a sequence of printed
      lines prints those lines again, in order. With each LogFormat call
      taken as one indivisible step, that sequence is the run's console. */
  lemma ReplayOfRunLog(lines: seq<Line>, now: string, matches: string -> bool)
    ensures DecodablePrefix(Encode(Entries(lines, now))) == |Encode(Entries(lines, now))|
    ensures AsLines(Kept(Decoded(Encode(Entries(lines, now))), "", "", matches)) == lines
  {
    var entries := Entries(lines, now);
    DecodeEncode(entries);
    KeptEverything(entries, matches);
    AsLinesEntries(lines, now);
  }

  /** One more line of the file, when it decodes, adds its entry's line if
      the filter keeps it. */
  lemma ReplayStep(lines: seq<Option<LogEntry>>, k: nat, tag: string, filter: string, matches: string -> bool)
    requires k < |lines| && lines[k].Some?
    ensures AsLines(Kept(Decoded(lines[..k + 1]), tag, filter, matches)) ==
      AsLines(Kept(Decoded(lines[..k]), tag, filter, matches)) +
      (if Keep(lines[k].value, tag, filter, matches) then [EntryLine(lines[k].value)] else [])
  {
    var e := lines[k].value;
    var before := Decoded(lines[..k]);
    assert lines[..k + 1][..k] == lines[..k];
    assert Decoded(lines[..k + 1]) == before + [e];
    assert (before + [e])[..|before|] == before;
    var kept := Kept(before, tag, filter, matches);
    if Keep(e, tag, filter, matches) {
      assert (kept + [e])[..|kept|] == kept;
    } else {
      assert kept + [] == kept;
    }
  }

  /** The message predicate a compiled filter stands for; it is consulted
      only when the filter is not empty. */
  function Matcher(compiled: Option<string -> bool>): string -> bool
  {
    if compiled.Some? then compiled.value else _ => true
  }

  /** The body of the replay loop for an entry that decoded: skip it unless
      the tag flag and the filter accept it, otherwise print it with its own
      colour, tag and message (cmd/gojobs/gojobs.go:70-78). */
  method ReplayEntry(r: Runner, e: LogEntry, tag: string, filter: string, matches: string -> bool, now: string)
    requires r.logFilename == ""
    modifies r`console, r`logFile
    ensures r.console == old(r.console) + (if Keep(e, tag, filter, matches) then [EntryLine(e)] else [])
    ensures r.logFile == old(r.logFile)
  {
    if tag != "" && e.tag != tag {
      return;
    }
    if filter != "" && !matches(e.message) {
      return;
    }
    r.LogFormat(e.color, e.tag, e.message, now);
  }

  /** `-logs`: print the entries of the log file that the tag flag and the
      filter accept, in file order. `compiled` is what compiling the filter
      gave (None when it does not compile); `file` is the log file's lines,
      each decoded or not (None when the file cannot be found or opened).
      The package's log file name is not set on this path, so nothing is
      persisted. */
  method ReplayLogs(r: Runner, tag: string, filter: string, compiled: Option<string -> bool>,
                    file: Option<seq<Option<LogEntry>>>, now: string) returns (status: int)
    requires r.logFilename == ""
    modifies r`console, r`logFile
    ensures r.logFile == old(r.logFile)
    ensures filter != "" && compiled.None? ==> status == 1 && r.console == old(r.console)
    ensures (filter == "" || compiled.Some?) && file.None? ==> status == 1 && r.console == old(r.console)
    ensures (filter == "" || compiled.Some?) && file.Some? ==>
      var lines := file.value;
      var k := DecodablePrefix(lines);
      && status == (if k == |lines| then 0 else 1)
      && r.console == old(r.console) + AsLines(Kept(Decoded(lines[..k]), tag, filter, Matcher(compiled)))
  {
    if filter != "" && compiled.None? {
      return 1;
    }
    if file.None? {
      return 1;
    }
    var lines := file.value;
    var matches := Matcher(compiled);
    for k := 0 to |lines|
      invariant k <= DecodablePrefix(lines)
      invariant r.console == old(r.console) + AsLines(Kept(Decoded(lines[..k]), tag, filter, matches))
      invariant r.logFile == old(r.logFile)
    {
      DecodableScan(lines, k);
      if lines[k].None? {
        return 1;
      }
      var e := lines[k].value;
      ReplayStep(lines, k, tag, filter, matches);
      AppendAssoc(old(r.console), AsLines(Kept(Decoded(lines[..k]), tag, filter, matches)),
                  if Keep(e, tag, filter, matches) then [EntryLine(e)] else []);
      ReplayEntry(r, e, tag, filter, matches, now);
    }
    assert lines[..|lines|] == lines;
    return 0;
  }

  /** The line replay prints for an entry as written: the message reaches
      LogFormat as its format string (cmd/gojobs/gojobs.go:78), so fmt
      rewrites every '%' directive in it. */
  function ReplayedLineAsWritten(e: LogEntry): (l: Line)
    ensures l.color == e.color && l.tag == e.tag
    ensures '%' !in e.message ==> l == EntryLine(e)
  {
    Line(e.color, e.tag, Fmt.Sprintf0(e.message))
  }

  /** A logged message ending in a lone '%', such as "100%", is replayed with
      "%!(NOVERB)" in place of that '%' as written. */
  lemma ReplayMangled(e: LogEntry, text: string)
    requires '%' !in text && e.message == text + "%"
    ensures ReplayedLineAsWritten(e).message == text + "%!(NOVERB)"
    ensures ReplayedLineAsWritten(e) != EntryLine(e)
  {
    Fmt.TrailingPercentIsMangled(text);
    assert |text + "%!(NOVERB)"| != |text + "%"|;
  }

  // The job file and -add (cmd/gojobs/gojobs.go:18, 87-132)

  /** The job file as the program finds it: absent, or present with its
      decoded contents (None when it does not decode). */
  datatype JobFile = Missing | Present(decoded: Option<seq<JobSpec>>)

  /** The program's global `Jobs` configuration and the job file. */
  class Cli {
    var jobs: seq<JobSpec>
    var jobFile: JobFile

    /** `Jobs` starts as the empty configuration. */
    constructor (jobFile: JobFile)
      ensures jobs == [] && this.jobFile == jobFile
    {
      jobs := [];
      this.jobFile := jobFile;
    }

    /** Load the job file when it exists; a file that does not decode is fatal. */
    method LoadJobFile() returns (step: Step)
      modifies this`jobs
      ensures step == if jobFile.Present? && jobFile.decoded.None? then Exit(1) else Continue
      ensures jobs == if jobFile.Present? && jobFile.decoded.Some? then jobFile.decoded.value else old(jobs)
    {
      step := Continue;
      if jobFile.Present? {
        match jobFile.decoded {
          case None =>
            step := Exit(1);
          case Some(config) =>
            jobs := config;
        }
      }
    }

    /** `-add`: a job needs a tag; its environment is the `ambient` list when
        the env flag is empty, and otherwise the flag decoded as JSON
        (`envDecoded`: None when it does not decode, `Inherit` for `null`,
        which leaves no list at all, and `Vars` for an array of strings). The new job goes at the end and the whole
        configuration is written back to the job file. */
    method AddJob(tag: string, command: string, shell: string, dir: string,
                  envFlag: string, envDecoded: Option<Environment>, ambient: seq<string>) returns (step: Step)
      modifies this
      ensures step == if tag == "" || (envFlag != "" && envDecoded.None?) then Exit(1) else Continue
      ensures step.Exit? ==> jobs == old(jobs) && jobFile == old(jobFile)
      ensures step.Continue? ==>
        && |jobs| == |old(jobs)| + 1
        && jobs[..|old(jobs)|] == old(jobs)
        && jobs[|old(jobs)|] == JobSpec(tag, command, shell, dir, if envFlag == "" then Vars(ambient) else envDecoded.value)
        && jobFile == Present(Some(jobs))
    {
      if tag == "" {
        return Exit(1);
      }
      var env := Vars(ambient);
      if envFlag != "" {
        match envDecoded {
          case None =>
            return Exit(1);
          case Some(decoded) =>
            env := decoded;
        }
      }
      jobs := jobs + [JobSpec(tag, command, shell, dir, env)];
      jobFile := Present(Some(jobs));
      step := Continue;
    }
  }

  // -run (cmd/gojobs/gojobs.go:134-170)

  /** Point the package at the log file, empty that file when one is
      configured, then start every job in configuration order.
      `existingLog` is what the file held before. */
  method BeginRun(config: seq<JobSpec>, logPath: string, existingLog: seq<LogEntry>, now: string) returns (r: Runner)
    ensures fresh(r) && fresh(r.jobs) && r.Valid()
    ensures r.config == config && r.exitCode == 0 && r.logFilename == logPath
    ensures forall i | 0 <= i < r.jobs.Length :: r.jobs[i] == Idle.(started := true)
    ensures forall i | 0 <= i < |r.killed| :: !r.killed[i]
    ensures r.console == StartLines(config)
    ensures r.logFile == if logPath == "" then existingLog else Entries(StartLines(config), now)
  {
    r := new Runner(config, existingLog);
    r.logFilename := logPath;
    if logPath != "" {
      r.logFile := [];
    }
    r.DispatchAll(now);
  }

  /** Every job has finished: report the status and exit with `ExitCode`. */
  method ExitNaturally(r: Runner, now: string) returns (status: int)
    requires r.Valid()
    modifies r`console, r`logFile
    ensures status == r.exitCode
    ensures r.console == old(r.console) + StatusLines(r.config, r.jobs[..])
    ensures r.logFile == old(r.logFile) + Persisted(r.logFilename, StatusLines(r.config, r.jobs[..]), now)
  {
    r.Status(now);
    status := r.exitCode;
  }

  /** An interrupt (SIGINT) arrived: kill the started jobs, report the
      status, and exit with `ExitCode` raised to at least 1. */
  method ExitOnInterrupt(r: Runner, now: string) returns (status: int)
    requires r.Valid()
    modifies r`killed, r`console, r`logFile, r`exitCode
    ensures r.Valid()
    ensures status == r.exitCode == Max(old(r.exitCode), 1)
    ensures forall i | 0 <= i < r.jobs.Length :: r.killed[i] == (old(r.killed[i]) || r.jobs[i].started)
    ensures r.console == old(r.console) + StatusLines(r.config, r.jobs[..])
    ensures r.logFile == old(r.logFile) + Persisted(r.logFilename, StatusLines(r.config, r.jobs[..]), now)
  {
    r.Shutdown();
    r.Status(now);
    if 1 > r.exitCode {
      r.exitCode := 1;
    }
    status := r.exitCode;
  }

  /** The Wait outcomes of all jobs, in configuration order. */
  function AllOutcomes(execs: seq<Execution>): seq<WaitOutcome>
  {
    seq(|execs|, i requires 0 <= i < |execs| => execs[i].outcome)
  }

  lemma {:induction false} OutcomesAt(execs: seq<Execution>, order: seq<nat>)
    requires forall k | 0 <= k < |order| :: order[k] < |execs|
    ensures forall k | 0 <= k < |order| :: Outcomes(execs, order)[k] == execs[order[k]].outcome
    decreases |order|
  {
    if order != [] {
      OutcomesAt(execs, order[..|order| - 1]);
    }
  }

  /** A schedule in which every job completes yields the outcomes of all
      jobs, whatever its order. */
  lemma CompleteScheduleOutcomes(execs: seq<Execution>, order: seq<nat>)
    requires IsSchedule(order, |execs|) && forall i | 0 <= i < |execs| :: i in order
    ensures forall o :: o in Outcomes(execs, order) <==> o in AllOutcomes(execs)
  {
    OutcomesAt(execs, order);
    var outs, all := Outcomes(execs, order), AllOutcomes(execs);
    forall o | o in outs
      ensures o in all
    {
      var k :| 0 <= k < |outs| && outs[k] == o;
      assert all[order[k]] == o;
    }
    forall o | o in all
      ensures o in outs
    {
      var i :| 0 <= i < |all| && all[i] == o;
      assert i in order;
      var k :| 0 <= k < |order| && order[k] == i;
      assert outs[k] == o;
    }
  }

  /** After a schedule in which every job completes, `ExitCode` is the
      highest code any job recorded, whatever the order. */
  lemma CompleteRunExitCode(execs: seq<Execution>, order: seq<nat>)
    requires IsSchedule(order, |execs|) && forall i | 0 <= i < |execs| :: i in order
    ensures FoldExitCode(0, Outcomes(execs, order)) == FoldExitCode(0, AllOutcomes(execs))
    ensures IsHighest(FoldExitCode(0, AllOutcomes(execs)), 0, AllOutcomes(execs))
  {
    CompleteScheduleOutcomes(execs, order);
    FoldOrderIndependent(0, Outcomes(execs, order), AllOutcomes(execs));
    FoldIsHighest(0, AllOutcomes(execs));
  }

  /** When every job succeeds the program exits with 0. */
  lemma AllSucceedExitZero(execs: seq<Execution>)
    requires forall i | 0 <= i < |execs| :: execs[i].outcome.Success?
    ensures FoldExitCode(0, AllOutcomes(execs)) == 0
  {
    NothingHigherKeepsExitCode(0, AllOutcomes(execs));
  }

  /** `-run` up to the moment its end comes: every job is dispatched, then
      the jobs in `order` finish, in that order, each one's lines in one
      block. With a log file configured, and each LogFormat call taken as one
      indivisible step, the file holds exactly the lines printed so far. */
  method RunUntil(config: seq<JobSpec>, logPath: string, existingLog: seq<LogEntry>,
                  order: seq<nat>, execs: seq<Execution>, now: string) returns (r: Runner)
    requires |execs| == |config| && IsSchedule(order, |config|)
    ensures fresh(r) && r.Valid() && r.config == config && r.logFilename == logPath
    ensures r.exitCode == FoldExitCode(0, Outcomes(execs, order))
    ensures forall i | 0 <= i < r.jobs.Length ::
      r.jobs[i] == if i in order then Finished(Idle.(started := true), execs[i]) else Idle.(started := true)
    ensures forall i | 0 <= i < |r.killed| :: !r.killed[i]
    ensures r.console == StartLines(config) + BatchLines(config, execs, order)
    ensures r.logFile == if logPath == "" then existingLog else Entries(r.console, now)
  {
    r := BeginRun(config, logPath, existingLog, now);
    r.CompleteInOrder(order, execs, now);
    if logPath != "" {
      EntriesAppend(StartLines(config), BatchLines(config, execs, order), now);
    }
  }

  /** The status report a run ends with goes to the log after what the run
      printed before it. */
  lemma LogThenReport(logPath: string, printed: seq<Line>, report: seq<Line>, now: string)
    requires logPath != ""
    ensures Entries(printed, now) + Persisted(logPath, report, now) == Entries(printed + report, now)
  {
    EntriesAppend(printed, report, now);
  }

  /** `-run` where every job finishes, in the completion order `order`,
      before any signal: the program exits with the highest exit code any
      job recorded (0 when none is positive), whatever the order; with a
      log file configured, and each LogFormat call taken as one indivisible
      step, the file holds exactly the run's console lines. */
  method RunToCompletion(config: seq<JobSpec>, logPath: string, existingLog: seq<LogEntry>,
                         order: seq<nat>, execs: seq<Execution>, now: string) returns (r: Runner, status: int)
    requires |execs| == |config| && IsSchedule(order, |config|)
    requires forall i | 0 <= i < |config| :: i in order
    ensures fresh(r) && r.Valid() && r.config == config
    ensures status == FoldExitCode(0, AllOutcomes(execs))
    ensures IsHighest(status, 0, AllOutcomes(execs))
    ensures forall i | 0 <= i < r.jobs.Length :: r.jobs[i] == Finished(Idle.(started := true), execs[i])
    ensures r.console == StartLines(config) + BatchLines(config, execs, order) + StatusLines(config, r.jobs[..])
    ensures r.logFile == if logPath == "" then existingLog else Entries(r.console, now)
  {
    r := RunUntil(config, logPath, existingLog, order, execs, now);
    ghost var printed := r.console;
    status := ExitNaturally(r, now);
    CompleteRunExitCode(execs, order);
    if logPath != "" {
      LogThenReport(logPath, printed, StatusLines(config, r.jobs[..]), now);
    }
  }

  /** `-run` interrupted once the jobs in `order` have finished: every
      started job is killed and the program exits with at least 1. */
  method RunInterrupted(config: seq<JobSpec>, logPath: string, existingLog: seq<LogEntry>,
                        order: seq<nat>, execs: seq<Execution>, now: string) returns (r: Runner, status: int)
    requires |execs| == |config| && IsSchedule(order, |config|)
    ensures fresh(r) && r.Valid() && r.config == config
    ensures status == Max(FoldExitCode(0, Outcomes(execs, order)), 1)
    ensures forall i | 0 <= i < |r.killed| :: r.killed[i]
    ensures forall i | 0 <= i < r.jobs.Length ::
      r.jobs[i] == if i in order then Finished(Idle.(started := true), execs[i]) else Idle.(started := true)
    ensures r.console == StartLines(config) + BatchLines(config, execs, order) + StatusLines(config, r.jobs[..])
    ensures r.logFile == if logPath == "" then existingLog else Entries(r.console, now)
  {
    r := RunUntil(config, logPath, existingLog, order, execs, now);
    ghost var printed := r.console;
    status := ExitOnInterrupt(r, now);
    if logPath != "" {
      LogThenReport(logPath, printed, StatusLines(config, r.jobs[..]), now);
    }
  }
}

=== FILE: jobs.dfy ===
/** The jobs package (jobs/jobs.go): job records, the log sink, and the
    bookkeeping a run does on them — per-job exit codes, the process-wide
    highest exit code, the status report and the shutdown. Processes, pipes and
    goroutines are not modelled: what the operating system does with a job is
    an `Execution` value given to the runner. */
module Jobs {
  import opened ExitCodes
  import Fmt

  /** Terminal colours selecting the log level (jobs/jobs.go:15-18). */
  const Red := 31
  const Blue := 34

  /** A job's environment: `Inherit` is Go's nil list, with which the process
      gets the environment of the program that runs it; `Vars` is a list,
      empty or not, that replaces that environment. */
  datatype Environment = Inherit | Vars(vars: seq<string>)

  /** A job as the job file stores it. */
  datatype JobSpec = JobSpec(tag: string, command: string, shell: string, dir: string, env: Environment)

  /** The runtime fields of a job, never persisted: `started` stands for a
      started process, `duration` is in nanoseconds. The model merges the
      creation of the exec.Cmd handle (jobs/jobs.go:154) with the start of
      its process (178) and never observes a job between the two;
      ShutdownAsWritten covers that window. */
  datatype JobState = JobState(started: bool, exitCode: int, duration: nat)

  const Idle := JobState(false, 0, 0)

  /** One record of the log file. */
  datatype LogEntry = LogEntry(tag: string, message: string, timestamp: string, color: int)

  /** One line LogFormat prints on the console: colour, tag and message. */
  datatype Line = Line(color: int, tag: string, message: string)

  /** What the operating system does with one job's process: the lines it
      prints on standard output and standard error, in the order they are
      read; how Wait ends; and the elapsed time. */
  datatype Execution = Execution(output: seq<string>, outcome: WaitOutcome, duration: nat)

  function ToEntry(l: Line, now: string): LogEntry
  {
    LogEntry(l.tag, l.message, now, l.color)
  }

  /** The log-file records for console lines printed at time `now`. */
  function Entries(lines: seq<Line>, now: string): seq<LogEntry>
    decreases |lines|
  {
    if lines == [] then []
    else Entries(lines[..|lines| - 1], now) + [ToEntry(lines[|lines| - 1], now)]
  }

  /** What printing `lines` appends to the log file: nothing when no log file
      is configured. */
  function Persisted(filename: string, lines: seq<Line>, now: string): seq<LogEntry>
  {
    if filename == "" then [] else Entries(lines, now)
  }

  /** Each printed line is appended as one record carrying the same tag,
      message and colour, in the same order. */
  lemma {:induction false} EntriesAt(lines: seq<Line>, now: string)
    ensures |Entries(lines, now)| == |lines|
    ensures forall k | 0 <= k < |lines| ::
      Entries(lines, now)[k] == LogEntry(lines[k].tag, lines[k].message, now, lines[k].color)
    decreases |lines|
  {
    if lines != [] {
      EntriesAt(lines[..|lines| - 1], now);
    }
  }

  lemma {:induction false} EntriesAppend(a: seq<Line>, b: seq<Line>, now: string)
    ensures Entries(a + b, now) == Entries(a, now) + Entries(b, now)
    decreases |b|
  {
    if b != [] {
      var b', last := b[..|b| - 1], b[|b| - 1];
      assert (a + b)[..|a + b| - 1] == a + b';
      assert (a + b)[|a + b| - 1] == last;
      assert Entries(a + b, now) == Entries(a + b', now) + [ToEntry(last, now)];
      EntriesAppend(a, b', now);
    } else {
      assert a + b == a;
    }
  }

  lemma PersistedOne(filename: string, l: Line, now: string)
    ensures Persisted(filename, [l], now) == if filename == "" then [] else [ToEntry(l, now)]
  {
    assert [l][..0] == [];
    assert Entries([l], now) == Entries([], now) + [ToEntry(l, now)];
  }

  lemma PersistedAppend(filename: string, a: seq<Line>, b: seq<Line>, now: string)
    ensures Persisted(filename, a + b, now) == Persisted(filename, a, now) + Persisted(filename, b, now)
  {
    EntriesAppend(a, b, now);
  }

  lemma AppendAssoc<T>(a: seq<T>, b: seq<T>, c: seq<T>)
    ensures (a + b) + c == a + (b + c)
  {
  }

  // Messages

  const StartedMessage := "job started"

  /** Go renders durations with units; here they are plain nanoseconds. */
  function DurationString(d: nat): string
  {
    Fmt.NatToString(d) + "ns"
  }

  /** "exit=%d, duration=%s" (jobs/jobs.go:132, 134). */
  function StatusMessage(code: int, d: nat): string
  {
    "exit=" + Fmt.IntToString(code) + ", duration=" + DurationString(d)
  }

  /** The line Run prints once Wait has returned (jobs/jobs.go:188-208). */
  function CompletionLines(tag: string, o: WaitOutcome): seq<Line>
  {
    match o
    case Success => [Line(Blue, tag, "job complete, exit=0")]
    case ExitStatus(s) => [Line(Red, tag, "job error, exit=" + Fmt.IntToString(s))]
    case ExitErrorUndecodable => []
    case OtherError => [Line(Red, tag, "job error, exit=1")]
  }

  /** A job that recorded an exit code is reported in red with that code, a
      successful one in blue with 0, and one whose exit status cannot be
      decoded is not reported at all. */
  lemma CompletionReport(tag: string, o: WaitOutcome)
    ensures |CompletionLines(tag, o)| == 0 <==> o.ExitErrorUndecodable?
    ensures RecordedCode(o).Some? ==>
      CompletionLines(tag, o) == [Line(Red, tag, "job error, exit=" + Fmt.IntToString(RecordedCode(o).value))]
    ensures o.Success? ==> CompletionLines(tag, o) == [Line(Blue, tag, "job complete, exit=0")]
  {
    if o.OtherError? {
      assert Fmt.IntToString(1) == "1";
      assert "job error, exit=" + "1" == "job error, exit=1";
    }
  }

  /** The lines Run prints for a job's output, at info level, one per line read. */
  function OutputLines(tag: string, output: seq<string>): seq<Line>
    decreases |output|
  {
    if output == [] then []
    else OutputLines(tag, output[..|output| - 1]) + [Line(Blue, tag, output[|output| - 1])]
  }

  /** Every output line of a job, whether read from standard output or
      standard error, is logged once, in order, blue, under the job's tag,
      with its text unchanged. */
  lemma {:induction false} OutputLinesVerbatim(tag: string, output: seq<string>)
    ensures |OutputLines(tag, output)| == |output|
    ensures forall k | 0 <= k < |output| :: OutputLines(tag, output)[k] == Line(Blue, tag, output[k])
    decreases |output|
  {
    if output != [] {
      OutputLinesVerbatim(tag, output[..|output| - 1]);
    }
  }

  /** Everything a job prints between its start and the end of Run. */
  function FinishLines(tag: string, ex: Execution): seq<Line>
  {
    OutputLines(tag, ex.output) + CompletionLines(tag, ex.outcome)
  }

  /** The job's runtime fields after Run has waited for it. */
  function Finished(s: JobState, ex: Execution): JobState
  {
    s.(exitCode := JobExitCode(s.exitCode, ex.outcome), duration := ex.duration)
  }

  /** The status-report line of one job: red exactly when its exit code is
      positive, so a signalled job's -1 is reported at info level. */
  function StatusLine(tag: string, s: JobState): (l: Line)
    ensures l.tag == tag
    ensures l.color == Red <==> s.exitCode > 0
    ensures l.color == Blue <==> s.exitCode <= 0
  {
    Line(if s.exitCode > 0 then Red else Blue, tag, StatusMessage(s.exitCode, s.duration))
  }

  function StatusLines(config: seq<JobSpec>, states: seq<JobState>): seq<Line>
    requires |config| == |states|
    decreases |states|
  {
    if states == [] then []
    else
      var n := |states| - 1;
      StatusLines(config[..n], states[..n]) + [StatusLine(config[n].tag, states[n])]
  }

  /** One more job's status line at the end of the report so far. */
  lemma StatusStep(config: seq<JobSpec>, states: seq<JobState>, i: nat)
    requires |config| == |states| && i < |states|
    ensures StatusLines(config[..i + 1], states[..i + 1]) ==
      StatusLines(config[..i], states[..i]) + [StatusLine(config[i].tag, states[i])]
  {
    assert config[..i + 1][..i] == config[..i];
    assert states[..i + 1][..i] == states[..i];
  }

  /** The status report has one line per job, in configuration order. */
  lemma {:induction false} StatusReport(config: seq<JobSpec>, states: seq<JobState>)
    requires |config| == |states|
    ensures |StatusLines(config, states)| == |states|
    ensures forall i | 0 <= i < |states| :: StatusLines(config, states)[i] == StatusLine(config[i].tag, states[i])
    decreases |states|
  {
    if states != [] {
      var n := |states| - 1;
      StatusReport(config[..n], states[..n]);
    }
  }

  /** The "job started" lines of the jobs in `config`, in that order. */
  function StartLines(config: seq<JobSpec>): seq<Line>
    decreases |config|
  {
    if config == [] then []
    else StartLines(config[..|config| - 1]) + [Line(Blue, config[|config| - 1].tag, StartedMessage)]
  }

  /** Dispatch prints one blue "job started" line per job, in configuration
      order. */
  lemma {:induction false} StartReport(config: seq<JobSpec>)
    ensures |StartLines(config)| == |config|
    ensures forall i | 0 <= i < |config| :: StartLines(config)[i] == Line(Blue, config[i].tag, StartedMessage)
    decreases |config|
  {
    if config != [] {
      var n := |config| - 1;
      StartReport(config[..n]);
    }
  }

  /** A completion schedule: job indices, none twice. */
  predicate IsSchedule(order: seq<nat>, n: nat)
  {
    && (forall k | 0 <= k < |order| :: order[k] < n)
    && (forall j, k | 0 <= j < k < |order| :: order[j] != order[k])
  }

  /** The job records after the jobs in `order` have finished, one after
      another in that order. */
  function AfterCompletions(states: seq<JobState>, execs: seq<Execution>, order: seq<nat>): (r: seq<JobState>)
    requires |states| == |execs| && forall k | 0 <= k < |order| :: order[k] < |execs|
    ensures |r| == |states|
    decreases |order|
  {
    if order == [] then states
    else
      var prev, i := AfterCompletions(states, execs, order[..|order| - 1]), order[|order| - 1];
      prev[i := Finished(prev[i], execs[i])]
  }

  /** Each job finishes at most once, so after a schedule a job's record is
      its finished record exactly when the schedule holds it, and is
      otherwise untouched. */
  lemma {:induction false} AfterCompletionsAt(states: seq<JobState>, execs: seq<Execution>, order: seq<nat>)
    requires |states| == |execs| && IsSchedule(order, |execs|)
    ensures forall i | 0 <= i < |states| ::
      AfterCompletions(states, execs, order)[i] == if i in order then Finished(states[i], execs[i]) else states[i]
    decreases |order|
  {
    if order != [] {
      var n := |order| - 1;
      var init, last := order[..n], order[n];
      assert order == init + [last];
      assert IsSchedule(init, |execs|);
      AfterCompletionsAt(states, execs, init);
      assert last !in init;
    }
  }

  /** Extending a schedule's prefix by one job extends its outcomes, its job
      records and its printed lines by that job's. */
  lemma ScheduleStep(config: seq<JobSpec>, states: seq<JobState>, execs: seq<Execution>, order: seq<nat>, k: nat)
    requires |config| == |execs| == |states| && IsSchedule(order, |execs|) && k < |order|
    ensures AfterCompletions(states, execs, order[..k + 1]) ==
      var prev := AfterCompletions(states, execs, order[..k]);
      prev[order[k] := Finished(prev[order[k]], execs[order[k]])]
    ensures Outcomes(execs, order[..k + 1]) == Outcomes(execs, order[..k]) + [execs[order[k]].outcome]
    ensures BatchLines(config, execs, order[..k + 1]) ==
      BatchLines(config, execs, order[..k]) + FinishLines(config[order[k]].tag, execs[order[k]])
  {
    assert order[..k + 1][..k] == order[..k];
  }

  /** After the first k jobs of `order` have finished, starting from job
      records `before`, `ExitCode` e0, console c0 and log l0, the exit code,
      job records, console and log are e, states, console and log. */
  ghost predicate Completed(config: seq<JobSpec>, execs: seq<Execution>, order: seq<nat>, k: nat,
                            before: seq<JobState>, e0: int, c0: seq<Line>, l0: seq<LogEntry>,
                            logFilename: string, now: string,
                            e: int, states: seq<JobState>, console: seq<Line>, log: seq<LogEntry>)
    requires |config| == |execs| == |before| && IsSchedule(order, |execs|) && k <= |order|
  {
    && e == FoldExitCode(e0, Outcomes(execs, order[..k]))
    && states == AfterCompletions(before, execs, order[..k])
    && console == c0 + BatchLines(config, execs, order[..k])
    && log == l0 + Persisted(logFilename, BatchLines(config, execs, order[..k]), now)
  }

  /** Finishing the k-th job of the schedule extends Completed by one job. */
  lemma CompletedStep(config: seq<JobSpec>, execs: seq<Execution>, order: seq<nat>, k: nat,
                      before: seq<JobState>, e0: int, c0: seq<Line>, l0: seq<LogEntry>,
                      logFilename: string, now: string,
                      e: int, states: seq<JobState>, console: seq<Line>, log: seq<LogEntry>)
    requires |config| == |execs| == |before| && IsSchedule(order, |execs|) && k < |order|
    requires Completed(config, execs, order, k, before, e0, c0, l0, logFilename, now, e, states, console, log)
    ensures
      var i := order[k];
      var lines := FinishLines(config[i].tag, execs[i]);
      Completed(config, execs, order, k + 1, before, e0, c0, l0, logFilename, now,
                UpdateExitCode(e, execs[i].outcome), states[i := Finished(states[i], execs[i])],
                console + lines, log + Persisted(logFilename, lines, now))
  {
    var i := order[k];
    var printed := BatchLines(config, execs, order[..k]);
    var lines := FinishLines(config[i].tag, execs[i]);
    ScheduleStep(config, before, execs, order, k);
    FoldAppend(e0, Outcomes(execs, order[..k]), execs[i].outcome);
    PersistedAppend(logFilename, printed, lines, now);
    AppendAssoc(c0, printed, lines);
    AppendAssoc(l0, Persisted(logFilename, printed, now), Persisted(logFilename, lines, now));
  }

  /** The Wait outcomes of the jobs in `order`, in that order. */
  function Outcomes(execs: seq<Execution>, order: seq<nat>): (r: seq<WaitOutcome>)
    requires forall k | 0 <= k < |order| :: order[k] < |execs|
    ensures |r| == |order|
    decreases |order|
  {
    if order == [] then []
    else Outcomes(execs, order[..|order| - 1]) + [execs[order[|order| - 1]].outcome]
  }

  /** Everything the jobs in `order` print as they complete, in that order. */
  function BatchLines(config: seq<JobSpec>, execs: seq<Execution>, order: seq<nat>): seq<Line>
    requires |config| == |execs|
    requires forall k | 0 <= k < |order| :: order[k] < |execs|
    decreases |order|
  {
    if order == [] then []
    else
      var i := order[|order| - 1];
      BatchLines(config, execs, order[..|order| - 1]) + FinishLines(config[i].tag, execs[i])
  }

  /** The state of one run: the configured jobs with their runtime fields,
      the package globals `ExitCode` and `LogFilename`, the log file's
      contents, the console, and which processes have been sent a kill. */
  class Runner {
    const config: seq<JobSpec>
    const jobs: array<JobState>
    var exitCode: int
    var logFilename: string
    var logFile: seq<LogEntry>
    var console: seq<Line>
    ghost var killed: seq<bool>

    ghost predicate Valid()
      reads this
    {
      jobs.Length == |config| == |killed| && exitCode >= 0
    }

    /** Package initialisation over a configuration; `existingLog` is what
        the file that will be configured as the log holds beforehand. */
    constructor (config: seq<JobSpec>, existingLog: seq<LogEntry>)
      ensures Valid() && fresh(jobs)
      ensures this.config == config
      ensures forall i | 0 <= i < jobs.Length :: jobs[i] == Idle
      ensures exitCode == 0 && logFilename == "" && logFile == existingLog && console == []
      ensures forall i | 0 <= i < |killed| :: !killed[i]
    {
      this.config := config;
      jobs := new JobState[|config|](_ => Idle);
      exitCode := 0;
      logFilename := "";
      logFile := existingLog;
      console := [];
      killed := seq(|config|, _ => false);
    }

    /** Print one line and, when a log file is configured, append one record
        for it (jobs/jobs.go:100-125). */
    method LogFormat(color: int, tag: string, message: string, now: string)
      modifies this`console, this`logFile
      ensures console == old(console) + [Line(color, tag, message)]
      ensures logFile == old(logFile) + Persisted(logFilename, [Line(color, tag, message)], now)
    {
      PersistedOne(logFilename, Line(color, tag, message), now);
      console := console + [Line(color, tag, message)];
      if logFilename != "" {
        logFile := logFile + [LogEntry(tag, message, now, color)];
      }
    }

    /** LogError and LogErrorf: red. */
    method LogError(tag: string, message: string, now: string)
      modifies this`console, this`logFile
      ensures console == old(console) + [Line(Red, tag, message)]
      ensures logFile == old(logFile) + Persisted(logFilename, [Line(Red, tag, message)], now)
    {
      LogFormat(Red, tag, message, now);
    }

    /** LogInfo and LogInfof: blue. */
    method LogInfo(tag: string, message: string, now: string)
      modifies this`console, this`logFile
      ensures console == old(console) + [Line(Blue, tag, message)]
      ensures logFile == old(logFile) + Persisted(logFilename, [Line(Blue, tag, message)], now)
    {
      LogFormat(Blue, tag, message, now);
    }

    /** LogFatal: a red line, then the process exits with the returned status 1. */
    method LogFatal(tag: string, message: string, now: string) returns (status: int)
      modifies this`console, this`logFile
      ensures status == 1
      ensures console == old(console) + [Line(Red, tag, message)]
      ensures logFile == old(logFile) + Persisted(logFilename, [Line(Red, tag, message)], now)
    {
      LogFormat(Red, tag, message, now);
      status := 1;
    }

    /** The start of Run: the command handle is created and "job started"
        is logged (jobs/jobs.go:154-158). */
    method Start(i: nat, now: string)
      requires Valid() && i < jobs.Length
      modifies jobs, this`console, this`logFile
      ensures Valid()
      ensures jobs[i] == old(jobs[i]).(started := true)
      ensures forall k | 0 <= k < jobs.Length && k != i :: jobs[k] == old(jobs[k])
      ensures console == old(console) + [Line(Blue, config[i].tag, StartedMessage)]
      ensures logFile == old(logFile) + Persisted(logFilename, [Line(Blue, config[i].tag, StartedMessage)], now)
    {
      jobs[i] := jobs[i].(started := true);
      LogInfo(config[i].tag, StartedMessage, now);
    }

    /** Log every line the job prints, at info level (jobs/jobs.go:169-175, 182-186). */
    method LogOutput(tag: string, output: seq<string>, now: string)
      modifies this`console, this`logFile
      ensures console == old(console) + OutputLines(tag, output)
      ensures logFile == old(logFile) + Persisted(logFilename, OutputLines(tag, output), now)
    {
      ghost var printed: seq<Line> := [];
      var k := 0;
      while k < |output|
        invariant 0 <= k <= |output|
        invariant printed == OutputLines(tag, output[..k])
        invariant console == old(console) + printed
        invariant logFile == old(logFile) + Persisted(logFilename, printed, now)
      {
        var line := Line(Blue, tag, output[k]);
        assert output[..k + 1][..k] == output[..k];
        PersistedAppend(logFilename, printed, [line], now);
        LogInfo(tag, output[k], now);
        AppendAssoc(old(console), printed, [line]);
        AppendAssoc(old(logFile), Persisted(logFilename, printed, now), Persisted(logFilename, [line], now));
        printed := printed + [line];
        k := k + 1;
      }
      assert output[..k] == output;
    }

    /** The branch on Wait's outcome: log it, set the job's exit code and
        raise `ExitCode` (jobs/jobs.go:188-208). */
    method RecordOutcome(i: nat, o: WaitOutcome, now: string)
      requires Valid() && i < jobs.Length
      modifies jobs, this`console, this`logFile, this`exitCode
      ensures Valid()
      ensures jobs[i] == old(jobs[i]).(exitCode := JobExitCode(old(jobs[i].exitCode), o))
      ensures forall k | 0 <= k < jobs.Length && k != i :: jobs[k] == old(jobs[k])
      ensures exitCode == UpdateExitCode(old(exitCode), o)
      ensures console == old(console) + CompletionLines(config[i].tag, o)
      ensures logFile == old(logFile) + Persisted(logFilename, CompletionLines(config[i].tag, o), now)
    {
      var tag := config[i].tag;
      match o {
        case Success =>
          LogInfo(tag, "job complete, exit=0", now);
        case ExitStatus(s) =>
          LogError(tag, "job error, exit=" + Fmt.IntToString(s), now);
          jobs[i] := jobs[i].(exitCode := s);
          if s > exitCode {
            exitCode := s;
          }
        case ExitErrorUndecodable =>
          assert Persisted(logFilename, [], now) == [];
        case OtherError =>
          LogError(tag, "job error, exit=1", now);
          jobs[i] := jobs[i].(exitCode := 1);
          if 1 > exitCode {
            exitCode := 1;
          }
      }
    }

    /** The rest of Run once the process has been started: every output line
        is logged, Wait's outcome is recorded, and the duration is stored
        (jobs/jobs.go:169-210). */
    method Finish(i: nat, ex: Execution, now: string)
      requires Valid() && i < jobs.Length
      modifies jobs, this`console, this`logFile, this`exitCode
      ensures Valid()
      ensures jobs[i] == Finished(old(jobs[i]), ex)
      ensures forall k | 0 <= k < jobs.Length && k != i :: jobs[k] == old(jobs[k])
      ensures exitCode == UpdateExitCode(old(exitCode), ex.outcome)
      ensures console == old(console) + FinishLines(config[i].tag, ex)
      ensures logFile == old(logFile) + Persisted(logFilename, FinishLines(config[i].tag, ex), now)
    {
      var tag := config[i].tag;
      ghost var output, completion := OutputLines(tag, ex.output), CompletionLines(tag, ex.outcome);
      LogOutput(tag, ex.output, now);
      RecordOutcome(i, ex.outcome, now);
      PersistedAppend(logFilename, output, completion, now);
      AppendAssoc(old(console), output, completion);
      AppendAssoc(old(logFile), Persisted(logFilename, output, now), Persisted(logFilename, completion, now));
      jobs[i] := jobs[i].(duration := ex.duration);
    }

    /** Run one job from start to finish (jobs.Run). */
    method Run(i: nat, ex: Execution, now: string)
      requires Valid() && i < jobs.Length
      modifies jobs, this`console, this`logFile, this`exitCode
      ensures Valid()
      ensures jobs[i] == Finished(old(jobs[i]), ex).(started := true)
      ensures forall k | 0 <= k < jobs.Length && k != i :: jobs[k] == old(jobs[k])
      ensures exitCode == UpdateExitCode(old(exitCode), ex.outcome)
      ensures console == old(console) + [Line(Blue, config[i].tag, StartedMessage)] + FinishLines(config[i].tag, ex)
      ensures logFile == old(logFile) +
        Persisted(logFilename, [Line(Blue, config[i].tag, StartedMessage)] + FinishLines(config[i].tag, ex), now)
    {
      ghost var started, finished := [Line(Blue, config[i].tag, StartedMessage)], FinishLines(config[i].tag, ex);
      Start(i, now);
      Finish(i, ex, now);
      PersistedAppend(logFilename, started, finished, now);
      AppendAssoc(old(console), started, finished);
      AppendAssoc(old(logFile), Persisted(logFilename, started, now), Persisted(logFilename, finished, now));
    }

    /** Start every job, in configuration order (cmd/gojobs/gojobs.go:148-151). */
    method DispatchAll(now: string)
      requires Valid()
      modifies jobs, this`console, this`logFile
      ensures Valid()
      ensures forall i | 0 <= i < jobs.Length :: jobs[i] == old(jobs[i]).(started := true)
      ensures console == old(console) + StartLines(config)
      ensures logFile == old(logFile) + Persisted(logFilename, StartLines(config), now)
    {
      ghost var printed: seq<Line> := [];
      var i := 0;
      while i < jobs.Length
        invariant 0 <= i <= jobs.Length
        invariant Valid()
        invariant forall k | 0 <= k < i :: jobs[k] == old(jobs[k]).(started := true)
        invariant forall k | i <= k < jobs.Length :: jobs[k] == old(jobs[k])
        invariant printed == StartLines(config[..i])
        invariant console == old(console) + printed
        invariant logFile == old(logFile) + Persisted(logFilename, printed, now)
      {
        var line := Line(Blue, config[i].tag, StartedMessage);
        assert config[..i + 1][..i] == config[..i];
        PersistedAppend(logFilename, printed, [line], now);
        Start(i, now);
        AppendAssoc(old(console), printed, [line]);
        AppendAssoc(old(logFile), Persisted(logFilename, printed, now), Persisted(logFilename, [line], now));
        printed := printed + [line];
        i := i + 1;
      }
      assert config[..i] == config;
    }

    /** The state after the first k jobs of `order` have finished, starting
        from job records `before`, `ExitCode` e0, console c0 and log l0. */
    ghost predicate CompletedPrefix(order: seq<nat>, execs: seq<Execution>, k: nat, before: seq<JobState>,
                                    e0: int, c0: seq<Line>, l0: seq<LogEntry>, now: string)
      requires Valid() && |execs| == jobs.Length && IsSchedule(order, jobs.Length) && k <= |order|
      reads this, jobs
    {
      && |before| == jobs.Length
      && Completed(config, execs, order, k, before, e0, c0, l0, logFilename, now, exitCode, jobs[..], console, logFile)
    }

    /** The k-th job of the schedule finishes. */
    method CompleteNext(order: seq<nat>, execs: seq<Execution>, k: nat, ghost before: seq<JobState>,
                        ghost e0: int, ghost c0: seq<Line>, ghost l0: seq<LogEntry>, now: string)
      requires Valid() && |execs| == jobs.Length && IsSchedule(order, jobs.Length) && k < |order|
      requires CompletedPrefix(order, execs, k, before, e0, c0, l0, now)
      modifies jobs, this`console, this`logFile, this`exitCode
      ensures Valid()
      ensures CompletedPrefix(order, execs, k + 1, before, e0, c0, l0, now)
    {
      var i := order[k];
      ghost var states := jobs[..];
      CompletedStep(config, execs, order, k, before, e0, c0, l0, logFilename, now, exitCode, states, console, logFile);
      Finish(i, execs[i], now);
      assert jobs[..] == states[i := Finished(states[i], execs[i])];
    }

    /** The started jobs finish one after another in the order of `order`;
        the unsynchronised completions of the source are taken in any order. */
    method CompleteInOrder(order: seq<nat>, execs: seq<Execution>, now: string)
      requires Valid() && |execs| == jobs.Length && IsSchedule(order, jobs.Length)
      modifies jobs, this`console, this`logFile, this`exitCode
      ensures Valid()
      ensures exitCode == FoldExitCode(old(exitCode), Outcomes(execs, order))
      ensures forall i | 0 <= i < jobs.Length ::
        jobs[i] == if i in order then Finished(old(jobs[i]), execs[i]) else old(jobs[i])
      ensures console == old(console) + BatchLines(config, execs, order)
      ensures logFile == old(logFile) + Persisted(logFilename, BatchLines(config, execs, order), now)
    {
      ghost var before := jobs[..];
      assert order[..0] == [];
      var k := 0;
      while k < |order|
        invariant 0 <= k <= |order|
        invariant Valid()
        invariant CompletedPrefix(order, execs, k, before, old(exitCode), old(console), old(logFile), now)
      {
        CompleteNext(order, execs, k, before, old(exitCode), old(console), old(logFile), now);
        k := k + 1;
      }
      assert order[..k] == order;
      AfterCompletionsAt(before, execs, order);
    }

    /** One job's status line: LogErrorf when its exit code is positive,
        LogInfof otherwise (jobs/jobs.go:131-135). */
    method LogStatus(tag: string, s: JobState, now: string)
      modifies this`console, this`logFile
      ensures console == old(console) + [StatusLine(tag, s)]
      ensures logFile == old(logFile) + Persisted(logFilename, [StatusLine(tag, s)], now)
    {
      if s.exitCode > 0 {
        LogError(tag, StatusMessage(s.exitCode, s.duration), now);
      } else {
        LogInfo(tag, StatusMessage(s.exitCode, s.duration), now);
      }
    }

    /** Report every job's exit code and duration, in configuration order,
        red when the code is positive (jobs/jobs.go:129-136). */
    method Status(now: string)
      requires Valid()
      modifies this`console, this`logFile
      ensures console == old(console) + StatusLines(config, jobs[..])
      ensures logFile == old(logFile) + Persisted(logFilename, StatusLines(config, jobs[..]), now)
    {
      var states := jobs[..];
      ghost var printed: seq<Line> := [];
      var i := 0;
      while i < |states|
        invariant 0 <= i <= |states|
        invariant printed == StatusLines(config[..i], states[..i])
        invariant console == old(console) + printed
        invariant logFile == old(logFile) + Persisted(logFilename, printed, now)
      {
        var line := StatusLine(config[i].tag, states[i]);
        StatusStep(config, states, i);
        PersistedAppend(logFilename, printed, [line], now);
        LogStatus(config[i].tag, states[i], now);
        AppendAssoc(old(console), printed, [line]);
        AppendAssoc(old(logFile), Persisted(logFilename, printed, now), Persisted(logFilename, [line], now));
        printed := printed + [line];
        i := i + 1;
      }
      assert config[..i] == config;
      assert states[..i] == states;
    }

    /** Kill every job whose process has been started; kill errors are
        ignored (jobs/jobs.go:141-147). A job's `started` flag stands for a
        started process: ShutdownAsWritten below shows what the source does
        with a job whose command exists but whose process does not yet. */
    method Shutdown()
      requires Valid()
      modifies this`killed
      ensures Valid()
      ensures forall i | 0 <= i < jobs.Length :: killed[i] == (old(killed[i]) || jobs[i].started)
    {
      var i := 0;
      while i < jobs.Length
        invariant 0 <= i <= jobs.Length
        invariant Valid()
        invariant forall k | 0 <= k < i :: killed[k] == (old(killed[k]) || jobs[k].started)
        invariant forall k | i <= k < jobs.Length :: killed[k] == old(killed[k])
      {
        if jobs[i].started {
          killed := killed[i := true];
        }
        i := i + 1;
      }
    }
  }

  /** How Run logs one output line as written: the line reaches LogFormat as
      its format string, through LogInfo with no operands (jobs/jobs.go:173,
      185), so fmt rewrites every '%' directive in it. A line without '%' is
      logged unchanged. */
  function OutputLineAsWritten(tag: string, text: string): (l: Line)
    ensures '%' !in text ==> l == Line(Blue, tag, text)
  {
    Line(Blue, tag, Fmt.Sprintf0(text))
  }

  /** An output line ending in a lone '%', such as "100%", is logged with
      "%!(NOVERB)" in place of that '%' as written, where OutputLines logs
      it verbatim. */
  lemma OutputLineMangled(tag: string, text: string)
    requires '%' !in text
    ensures OutputLineAsWritten(tag, text + "%") == Line(Blue, tag, text + "%!(NOVERB)")
    ensures OutputLineAsWritten(tag, text + "%").message != text + "%"
  {
    Fmt.TrailingPercentIsMangled(text);
    assert |text + "%!(NOVERB)"| != |text + "%"|;
  }

  /** How far a job's goroutine has got when Shutdown reads it: no command
      yet (before jobs/jobs.go:154), a command whose process has not been
      started (154-177, `Process` is nil), or a started process (178 on). */
  datatype Phase = Pending | Prepared | Launched

  /** What Shutdown does as written: the jobs it killed, and whether it
      panicked, and at which job, before reaching the end. */
  datatype ShutdownResult = AllKilled(killed: set<nat>) | Panicked(killed: set<nat>, at: nat)

  /** Shutdown as written, from job i on: a job with no command is skipped,
      a started process is killed, and a command with no process makes the
      call to Kill dereference a nil `Process` and panic, which ends the
      loop and the program (jobs/jobs.go:142-146). */
  function ShutdownAsWritten(phases: seq<Phase>, i: nat): (r: ShutdownResult)
    requires i <= |phases|
    ensures r.AllKilled? <==> forall k | i <= k < |phases| :: phases[k] != Prepared
    ensures r.Panicked? ==> i <= r.at < |phases| && phases[r.at] == Prepared
    ensures r.Panicked? ==> forall k | i <= k < r.at :: phases[k] != Prepared
    ensures forall k :: k in r.killed <==> i <= k < |phases| && phases[k] == Launched && (r.Panicked? ==> k < r.at)
    decreases |phases| - i
  {
    if i == |phases| then AllKilled({})
    else
      match phases[i]
      case Pending => ShutdownAsWritten(phases, i + 1)
      case Prepared => Panicked({}, i)
      case Launched =>
        match ShutdownAsWritten(phases, i + 1)
        case AllKilled(k) => AllKilled({i} + k)
        case Panicked(k, at) => Panicked({i} + k, at)
  }

  /** A signal that arrives while one job sits between creating its command
      and starting it makes Shutdown panic there: every started job after
      it is left running, and no status report follows. Runner.Shutdown
      kills every started job. */
  lemma LaunchedJobLeftRunning(phases: seq<Phase>, p: nat, j: nat)
    requires p < j < |phases| && phases[p] == Prepared && phases[j] == Launched
    ensures ShutdownAsWritten(phases, 0).Panicked?
    ensures ShutdownAsWritten(phases, 0).at <= p
    ensures j !in ShutdownAsWritten(phases, 0).killed
  {
  }
}
